=== FILE: README.md ===
# cache-tags: tag-index bookkeeping, modelled in Dafny

This project models the tag bookkeeping that the `cache-tags` package layers
over a Redis cache store. The package lets a Laravel cache associate keys with
tags: every write registers the key in a per-tag sorted set, scored by its
expiry timestamp. The model covers five pieces:

- **Key cleaning** (`CleansKeys`, `cleans_keys.dfy`). PSR-6 forbids `{}()/\@:`
  in keys. `cleanKey` gives `str_replace` the reserved characters as the
  search list and the *values* of `RESERVED_CHARACTERS_MAP` as the replacement
  list. `str_replace` pairs the two lists by position and ignores the map's
  keys. So `{` becomes `.`, `}` becomes byte 1, `(` byte 2, `)` byte 3, `/`
  byte 4, `\` byte 5, `@` byte 6 and `:` byte 7. The model applies the eight
  pairs one after another, as `str_replace` does. It proves that this equals a
  simultaneous per-character table.
- **Tag set** (`TagSets`, `tag_set.dfy`):
  - tag ids (`"tags\0" + name`);
  - the tag index, a map from tag id to that tag's sorted set (member to score);
  - `addEntry`, plain or with the ZADD flag `NX`, scoring `now + ttl`, where a
    null ttl means `DEFAULT_CACHE_TTL` (8640000 seconds);
  - `entries()`, a cursor-paged ZSCAN over each tag id in turn.
- **Key lookup** (`RetrievesKeys`, `retrieves_keys.dfy`). `getKey` is a linear
  first-match search over `entries()`. It compares Laravel's `Str::after`
  with the requested key.
- **Store** (`Store`, `store.dfy`):
  - `tags`, which cleans every tag name;
  - `forever`, which writes the cleaned key with an expiry of
    `DEFAULT_CACHE_TTL`;
  - the commands inherited from Laravel's RedisStore: get, SETEX, DEL, INCRBY
    and DECRBY. They address `prefix + key` with the key as given. Each item
    carries an expiry timestamp.
- **Cache operations** (`Cache`, `cache.dfy`). These are the `MethodOverrides`
  of `get`, `add`, `put`, `forever`, `remember`, `rememberForever`,
  `increment`, `decrement` and `forget`. Each is a pure transition on the pair
  (store keyspace, tag index).

The clock is the parameter `now`. A ZSCAN conversation is a supplied sequence
of pages per tag id. Each page carries the next cursor and either the page's
members or None, which stands for a reply that is not an array.

Facts about the code that the model makes explicit:

- `cleanKey` is not injective: `{` and `.` both become `.`
  (`CleansKeys.CleanKeyNotInjective`).
- Only `Store::forever` and `Store::tags` clean. `get`, `put` with a positive
  ttl, `increment`, `decrement` and `forget` reach the store with the raw key.
  Every write registers the raw key in the tag index. So a key with a reserved
  character is written by `forever` at one address and read at another (see
  Findings).
- There are no composite keys and no lookup over orderings of the tags:
  `getKey` is a plain first-match scan over `entries()`.
- `cleanKey(null)` returns `""`, because PHP turns a null `str_replace`
  subject into the empty string.

## Model

| member | source | states |
|---|---|---|
| CleansKeys.CleanChar | src/Cache/Traits/CleansKeys.php:7-17 | the i-th reserved character maps to the i-th map value (`{`→`.`, …, `:`→byte 7); no result is reserved; other characters map to themselves |
| CleansKeys.ReplaceAll | src/Cache/Traits/CleansKeys.php:24 | one search/replace pair of `str_replace`: same length, each occurrence of the search character replaced, every other position unchanged |
| CleansKeys.ReplaceFrom | src/Cache/Traits/CleansKeys.php:24 | `str_replace` over the two lists, pair after pair in list order: same length, and each position ends as its character alone would after the same pairs |
| CleansKeys.SequentialIsSimultaneous | src/Cache/Traits/CleansKeys.php:7-24 | running the eight pairs in list order gives each character the same result as the simultaneous table, because no substitute is a later search character |
| CleansKeys.CleanKey | src/Cache/Traits/CleansKeys.php:7-24 | output has the input's length; no reserved character remains; non-reserved characters stay in place; a reserved character at position j becomes its positional substitute |
| CleansKeys.CleanKeyFixedPoint | src/Cache/Traits/CleansKeys.php:24 | cleaning leaves a key unchanged if and only if the key has no reserved character |
| CleansKeys.CleanKeyIdempotent | src/Cache/Traits/CleansKeys.php:24 | cleanKey(cleanKey(k)) == cleanKey(k) |
| CleansKeys.CleanKeyNotInjective | src/Cache/Traits/CleansKeys.php:8-24 | `a{b` and `a.b` clean to the same key |
| TagSets.TagId | src/Cache/TagSet.php:12-23 | a tag id is `"tags\0"` followed by the name, which can be read back from it |
| TagSets.TagIdInjective | src/Cache/TagSet.php:20-23 | two names share a tag id if and only if they are equal |
| TagSets.TagKey | src/Cache/TagSet.php:39-42 | tagKey(n) equals tagId(n) |
| TagSets.TagIds | src/Cache/TagSet.php:28-31 | one id per name, same length and order, element i is tagId(names[i]) |
| TagSets.ZAdd | src/Cache/TagSet.php:103-109 | one ZADD: the member is present afterwards; with NX an existing score is kept, otherwise the score is set; other members are unchanged |
| TagSets.ZAddIdempotent | src/Cache/TagSet.php:103-109 | repeating the same ZADD changes nothing |
| TagSets.AddToAll | src/Cache/TagSet.php:102-110 | every listed tag's set receives the ZADD, even when a tag is listed twice; sets of unlisted tags are untouched |
| TagSets.AddEntry | src/Cache/TagSet.php:94-111 | the set of every tag of the tag set is that set after one ZADD of the key at now + ttl (with the given flag); the sets of all other tag ids are unchanged |
| TagSets.AddEntryDefaultTtl | src/Cache/TagSet.php:94-100 | a null ttl scores the key at now + 8640000 in every tag's set |
| TagSets.AddEntryPlain | src/Cache/TagSet.php:100-110 | plain addEntry sets key ↦ now + ttl in every tag's set and adds no other member; other members keep their scores; other tags' sets are unchanged |
| TagSets.AddEntryOnlyIfAbsent | src/Cache/TagSet.php:103-105 | with NX an existing member keeps its score and an absent one is inserted at now + ttl; other tags' sets are unchanged |
| TagSets.AddEntryIdempotent | src/Cache/TagSet.php:102-110 | with a fixed clock, adding the same entry twice equals adding it once |
| TagSets.Dedup | src/Cache/TagSet.php:72 | array_unique keeps exactly the page's members, each once, ordered by their first occurrence in the page |
| TagSets.ScanTag | src/Cache/TagSet.php:59-81 | a member is yielded if and only if it is listed by a page the do-while fetches, i.e. every earlier reply was an array whose cursor let the loop go on |
| TagSets.ScanTagAppend | src/Cache/TagSet.php:61-81 | while every reply is an array whose cursor lets the do-while go on, pages are consumed in order: the scan of a + b is the members of a's pages, in page order, followed by the scan of b |
| TagSets.ScanTagOnePage | src/Cache/TagSet.php:68-80 | a single array page yields array_unique of its members, in order |
| TagSets.Entries | src/Cache/TagSet.php:58-82 | a member is yielded for a list of tag ids if and only if the scan of one of the ids yields it |
| TagSets.TagEntries | src/Cache/TagSet.php:47-84 | entries() is the enumeration over the tag ids in tagIds order, and yields a member if and only if the scan of one of the tag set's tags yields it |
| TagSets.EntriesOne | src/Cache/TagSet.php:58-81 | the enumeration of one tag id is exactly that tag's scan, in page order |
| TagSets.EntriesAppend | src/Cache/TagSet.php:58-82 | enumeration is tag by tag: entries of ids a + b are entries of a followed by entries of b |
| TagSets.EntriesAreIndexed | src/Cache/TagSet.php:58-80 | if the replies list only members of each tag's set, every yielded member belongs to the set of one of the tag set's tags |
| TagSets.NonArrayReplyEndsOnlyThisTag | src/Cache/TagSet.php:68-70 | a reply that is not an array ends only the current tag's scan; enumeration goes on with the next tag |
| TagSets.EmptyPageContinues | src/Cache/TagSet.php:74-81 | an empty page yields nothing and ends the scan only when its cursor is back at the default |
| TagSets.DefaultCursorEndsScan | src/Cache/TagSet.php:81 | a page whose cursor equals a string default cursor is the tag's last page |
| RetrievesKeys.FirstOccurrence | src/Cache/Traits/RetrievesKeys.php:19 | the position found is an occurrence of the search text and no earlier one exists; None means no occurrence |
| RetrievesKeys.After | src/Cache/Traits/RetrievesKeys.php:19 | `after` returns a suffix of the entry: the whole entry when the search text is empty or absent, otherwise the text after its first occurrence |
| RetrievesKeys.AfterOwnPrefix | src/Cache/Traits/RetrievesKeys.php:19 | after(prefix + key, prefix) == key |
| RetrievesKeys.UnprefixedEntryComparedWhole | src/Cache/Traits/RetrievesKeys.php:19 | an entry without the prefix matches the key if and only if it equals the key |
| RetrievesKeys.GetKey | src/Cache/Traits/RetrievesKeys.php:16-25 | (true, ik): ik is an entry, it matches, and no earlier entry matches. (false, k): no entry matches and k is itemKey(key). With no entries the result is always (false, itemKey(key)) |
| Store.Tags | src/Cache/Store.php:12-15 | the tag set holds the cleaned names, one per given name, in order |
| Store.TagsHaveCleanIds | src/Cache/Store.php:14 | no tag id of a tag set built by `tags` contains a reserved character |
| Store.CleanAddressOfCleanKey | src/Cache/Store.php:22-24 | for a key with no reserved character, forever's address is the raw address; a key and its cleaned form share forever's address |
| Store.Get | src/Cache/Traits/MethodOverrides.php:40 | the inherited read of `prefix + key`: the live item's value there, and null when nothing live is there |
| Store.GetCleaned | src/Cache/Store.php:22-24 | a read of the address forever writes, `prefix + cleanKey(key)`: the live item's value there, otherwise null |
| Store.Put | src/Cache/Traits/MethodOverrides.php:103 | SETEX of `prefix + key` with `max(1, seconds)` is acknowledged; only that address changes; the value reads back |
| Store.PutKeepsOtherKeys | src/Cache/Traits/MethodOverrides.php:103 | a put under one key changes what get returns for no other key, even one that cleans to the same string |
| Store.Forever | src/Cache/Store.php:20-25 | writes only `prefix + cleanKey(key)`; its expiry equals the score addEntry gives a null ttl; returns true |
| Store.ForeverThenGet | src/Cache/Store.php:20-24 | with nothing live at `prefix + key`, the inherited get finds forever's non-null value if and only if the key needs no cleaning |
| Store.ForeverThenGetMisses | src/Cache/Store.php:22-24 | forever(":", 1) and then the inherited get(":") returns null, while a read of the cleaned address returns 1 |
| Store.ForeverThenGetCleaned | src/Cache/Store.php:20-24 | reading where forever writes, forever(k, v) is read back as v under k and under cleanKey(k) |
| Store.Forget | src/Cache/Traits/MethodOverrides.php:223 | DEL removes only `prefix + key`; the reply says whether a live item was removed; a later get is null |
| Store.ForgetMissesForeverItem | src/Cache/Traits/MethodOverrides.php:223 | for a key that needs cleaning, forget(k) leaves the item forever(k) wrote |
| Store.IncrBy | src/Cache/Traits/MethodOverrides.php:196 | a missing key counts as 0 and gets no expiry; a live number or decimal integer string is shifted by delta and keeps its expiry; anything else is refused with the store unchanged; no other address is created or changed |
| Store.DecrBy | src/Cache/Traits/MethodOverrides.php:209 | as IncrBy with the amount subtracted: missing counts as 0, integers keep their expiry, a refusal changes nothing, no other address is created or changed |
| Store.IncrByNumericText | src/Cache/Traits/MethodOverrides.php:196 | the string "10" stored by put is incremented by 5 to 15 |
| Cache.Get | src/Cache/Traits/MethodOverrides.php:31-49 | a non-null stored value is returned; a miss or a stored null returns the default |
| Cache.Forget | src/Cache/Traits/MethodOverrides.php:218-230 | the tag index is untouched; only `prefix + key` is deleted; the reply says whether it was live; every later get returns its default |
| Cache.Forever | src/Cache/Traits/MethodOverrides.php:121-137 | adds the key to every tag with the default TTL; stores the value under the cleaned key, expiring at now + DEFAULT_CACHE_TTL, and nothing else; it reads back under the cleaned key, and under the key itself when that needs no cleaning; returns true |
| Cache.ForeverThenGet | src/Cache/Traits/MethodOverrides.php:40 | with nothing live under the raw key, get returns forever's non-null value if and only if the key needs no cleaning |
| Cache.ForeverExpiryMatchesScore | src/Cache/Traits/MethodOverrides.php:124-128 | the store expiry forever writes equals the key's score in every tag's sorted set |
| Cache.Put | src/Cache/Traits/MethodOverrides.php:82-112 | a null ttl is exactly forever; ttl ≤ 0 adds no tag entry and is exactly forget; ttl > 0 adds the entry with that ttl to every tag, writes `prefix + key` expiring at now + ttl and returns true |
| Cache.PutThenGet | tests/Unit/CacheTest.php:6-14 | put(k, v) with a positive ttl, or a null ttl and a key needing no cleaning, followed by get(k) returns v, or the default when v is null |
| Cache.Add | src/Cache/Traits/MethodOverrides.php:59-72 | the tag entry is added if and only if the ttl is non-null and positive, before delegating; the result is the inherited add's, whatever it is |
| Cache.Remember | src/Cache/Traits/MethodOverrides.php:149-162 | a cached non-null value is returned and nothing is written; otherwise the produced value is put and returned, and a later get returns it when put's read-back holds |
| Cache.RememberForever | src/Cache/Traits/MethodOverrides.php:173-184 | as remember, storing with forever; a produced non-null value reads back when the key needs no cleaning |
| Cache.RememberTwice | tests/Unit/CacheTest.php:138-148 | a second remember returns the first value and writes nothing, whatever the second producer gives (positive ttl, or null ttl and a key needing no cleaning) |
| Cache.RememberForeverRerunsProducer | src/Cache/Traits/MethodOverrides.php:173-184 | for a key that needs cleaning, a second rememberForever misses and returns the second producer's value |
| Cache.Increment | src/Cache/Traits/MethodOverrides.php:193-197 | NX tag entry, so an existing score never changes; a missing key counts as 0; a stored integer grows by delta and reads back; a non-integer is refused with the store unchanged; the store is exactly the INCRBY result, so no other address is created or changed |
| Cache.Decrement | src/Cache/Traits/MethodOverrides.php:206-210 | NX tag entry, so an existing score never changes; a missing key counts as 0; a stored integer shrinks by delta and reads back; a non-integer is refused with the store unchanged; the store is exactly the DECRBY result, so no other address is created or changed |
| Cache.IncrementThenDecrement | tests/Unit/CacheTest.php:43-55 | incrementing then decrementing by the same amount restores the integer; the tag index ends as after one NX entry |
| Cache.PutNumericTextThenIncrement | src/Cache/Traits/MethodOverrides.php:193-197 | put(k, "10", 5) then increment(k, 5) returns 15 |

## Left out

- Cache.RememberTwice: with a null ttl it is stated only for keys that need no cleaning. For other keys it does not hold as written (`Cache.RememberForeverRerunsProducer`, Findings).
- Cache.Add: the parent class's `add` (RedisTaggedCache) is not part of this model. It is the parameter `parentAdd`, so nothing is said about its outcome.
- RetrievesKeys.GetKey: the comparison is exact string equality. PHP's loose `==` also treats two numeric strings as equal when their numbers are equal (`"1e1" == "10"`).
- Store.IncrBy, Store.DecrBy, Cache.Increment, Cache.Decrement: integers are unbounded. Redis refuses results outside 64 bits (and a DECRBY by the smallest 64-bit integer), and that refusal is not modelled.
- Default arguments: `increment`/`decrement`'s `$value = 1` and `get`'s `$default = null` are required parameters here; a call without them is the call with 1 or null passed.
- Numbers read back: RedisStore stores a number unserialized and GET hands back its decimal text, so `put(k, 10, 5)` then `get(k)` gives `"10"`; the model's `Num(10)` stands for both. This applies to Store.Get, Store.Put, Store.IncrBy, Store.DecrBy, Cache.Get, Cache.PutThenGet, Cache.Increment and Cache.Decrement.
- TagSets.ScanTag: when the supplied replies run out before a stop condition, the scan ends. The server is assumed to be the one that supplies the replies.
- TagSets.ScanTag: a page's members are strings. PHP turns numeric-string array keys into integers, which is not modelled.
- CleansKeys.CleanKey: keys are sequences of characters. PHP's `str_replace` works on bytes; since every reserved character and substitute is a single ASCII byte, the two agree, but multi-byte encodings are not modelled.
- Multi-tag lookup over every ordering of the tags: it does not appear in the modelled code.
- `flush` and the pruning command: `flush` is inherited from Laravel's RedisTaggedCache, and the command's source is not part of this model.
- `TaggedRepository`: a thin wrapper over a Symfony tag-aware client that is not part of this model.
- `ServiceProvider`: framework wiring.
- Cache events (`RetrievingKey`, `CacheHit`, `KeyWritten`, …): a side channel with no effect on state. They are treated as no-ops.
- `many`, `putMany`, `pull`, `has`, `missing` and `getSeconds`: inherited methods that are not part of this model. A ttl is given as the seconds `getSeconds` resolves it to.
- Array keys of `get`: this path calls the inherited `many`, which is not part of this model. `put` has no array branch; its key goes to `addEntry`, which takes a string.
- The phpredis version check for the default cursor: the default is the parameter `default`. `None` stands for the null default, with which only a non-array reply ends a tag's scan.
- The Redis connection, serialization and transport failures: writes are always acknowledged. Values are `Null`, integers or strings; a string counts as an integer for INCRBY only in Redis' strict decimal form, and other PHP values are not distinguished.
- The store prefix in front of tag-set keys: scans and the index are keyed by tag id. That values and tag sets share one Redis keyspace is not modelled.
- A closure as `remember`'s ttl or as `get`'s default: values are given.
- The `cleanKey(null)` case: the model's keys are strings.
- ZADD flags other than NX: only NX is used.
- Distributed locks.

## Findings

| source | as written | input that shows it | evidently intended | confidence | as-written member | corrected member |
|---|---|---|---|---|---|---|
| src/Cache/Store.php:20-24 | `forever` writes under `prefix + cleanKey(key)`, but the inherited `get` (MethodOverrides.php:40 calls `$this->store->get($key)`) reads `prefix + key` uncleaned; `put` with a null ttl and `rememberForever` go through `forever` and miss the same way | `forever(":", 1)` then `get(":")` on an empty store returns null | a value written by `forever(k)` is read back by `get(k)`; the corrected read `GetCleaned` addresses the cleaned key as `forever` does (under it, keys that clean alike share one item) | low, not executed: the inherited RedisStore is not part of this model, and the files come from differently named namespaces | Store.ForeverThenGetMisses | Store.ForeverThenGetCleaned |

=== FILE: cache.dfy ===
/** The tagged cache's overridden operations (MethodOverrides): get, add, put,
    forever, remember, rememberForever, increment, decrement and forget, as
    transitions on the pair (store keyspace, tag index).

    Every write registers the raw key in the sorted set of each tag of the
    cache's tag set before it writes the store; forget leaves the tag index
    alone. Events are a side channel without effect on the state and are not
    modelled. `getSeconds($ttl)` is given: a ttl is None (null) or the number of
    seconds it resolves to.

    The store commands are the inherited RedisStore ones, addressing
    `prefix + key`, except forever, which addresses `prefix + cleanKey(key)`.
    So a value written by forever (or by put with a null ttl) is read back
    only under a key that needs no cleaning. */
module Cache {
  import opened Wrappers
  import opened CleansKeys
  import opened TagSets
  import Store

  /** The store keyspace and the tag index it is paired with. */
  datatype State = State(db: Store.Db, index: Index)

  /** The state after an operation, and the operation's return value. */
  datatype Step<T> = Step(state: State, out: T)

  /** A tagged cache: the store's key prefix and the cache's tag set. */
  datatype Config = Config(prefix: string, tags: TagSet)

  /** get: the stored value when it is not null, otherwise the default. The tag
      index plays no part in a read. */
  function Get(st: State, cfg: Config, key: string, default: Store.Value, now: int): (v: Store.Value)
    ensures Store.Get(st.db, cfg.prefix, key, now) != Store.Null ==> v == Store.Get(st.db, cfg.prefix, key, now)
    ensures Store.Get(st.db, cfg.prefix, key, now) == Store.Null ==> v == default
  {
    var stored := Store.Get(st.db, cfg.prefix, key, now);
    if stored != Store.Null then stored else default
  }

  /** forget: deletes the item at the key's address and nothing else; the tag
      index is untouched and a later get gives the default. Returns whether a
      live item was deleted. */
  function Forget(st: State, cfg: Config, key: string, now: int): (r: Step<bool>)
    ensures r.state.index == st.index
    ensures r.out <==> Store.Live(st.db, Store.Address(cfg.prefix, key), now)
    ensures forall a :: a in st.db && a != Store.Address(cfg.prefix, key) ==> a in r.state.db && r.state.db[a] == st.db[a]
    ensures r.state.db.Keys == st.db.Keys - {Store.Address(cfg.prefix, key)}
    ensures forall d :: Get(r.state, cfg, key, d, now) == d
  {
    var w := Store.Forget(st.db, cfg.prefix, key, now);
    Step(State(w.db, st.index), w.out)
  }

  /** forever: registers the key in every tag with the default TTL, then stores
      the value under the cleaned key with the same expiry. */
  function Forever(st: State, cfg: Config, key: string, value: Store.Value, now: int): (r: Step<bool>)
    ensures r.out
    ensures r.state.index == AddEntry(st.index, cfg.tags, key, None, Always, now)
    ensures Store.CleanAddress(cfg.prefix, key) in r.state.db &&
            r.state.db[Store.CleanAddress(cfg.prefix, key)] == Store.Item(value, Some(now + DefaultCacheTtl))
    ensures r.state.db.Keys == st.db.Keys + {Store.CleanAddress(cfg.prefix, key)}
    ensures forall a :: a in st.db && a != Store.CleanAddress(cfg.prefix, key) ==> a in r.state.db && r.state.db[a] == st.db[a]
    ensures Store.Get(r.state.db, cfg.prefix, CleanKey(key), now) == value
    ensures IsClean(key) ==> Store.Get(r.state.db, cfg.prefix, key, now) == value
  {
    CleanKeyFixedPoint(key);
    var index := AddEntry(st.index, cfg.tags, key, None, Always, now);
    var w := Store.Forever(st.db, cfg.prefix, key, value, now);
    Step(State(w.db, index), w.out)
  }

  /** As written, get finds a non-null value written by forever exactly when
      the key needs no cleaning (given nothing else live under the raw key). */
  lemma ForeverThenGet(st: State, cfg: Config, key: string, value: Store.Value, now: int)
    requires !Store.Live(st.db, Store.Address(cfg.prefix, key), now) && value != Store.Null
    ensures Get(Forever(st, cfg, key, value, now).state, cfg, key, Store.Null, now) == value <==> IsClean(key)
  {
    Store.ForeverThenGet(st.db, cfg.prefix, key, value, now);
  }

  /** The expiry forever gives the stored item is the score it gives the key in
      every tag's sorted set. */
  lemma ForeverExpiryMatchesScore(st: State, cfg: Config, key: string, value: Store.Value, now: int)
    ensures var r := Forever(st, cfg, key, value, now);
      forall name :: name in cfg.tags.names ==>
        TagId(name) in r.state.index && key in r.state.index[TagId(name)] &&
        Some(r.state.index[TagId(name)][key]) == r.state.db[Store.CleanAddress(cfg.prefix, key)].expiresAt
  {
    AddEntryDefaultTtl(st.index, cfg.tags, key, now);
  }

  /** put: a null ttl is forever; a non-positive ttl adds no tag entry and
      forgets the key; a positive ttl registers the key in every tag at now +
      ttl, then writes the store and returns its reply. */
  function Put(st: State, cfg: Config, key: string, value: Store.Value, ttl: Option<int>, now: int): (r: Step<bool>)
    ensures ttl.None? ==> r == Forever(st, cfg, key, value, now)
    ensures ttl.Some? && ttl.value <= 0 ==> r == Forget(st, cfg, key, now) && r.state.index == st.index
    ensures ttl.Some? && ttl.value > 0 ==>
              && r.state.index == AddEntry(st.index, cfg.tags, key, ttl, Always, now)
              && r.state.db == Store.Put(st.db, cfg.prefix, key, value, ttl.value, now).db
              && Store.Address(cfg.prefix, key) in r.state.db
              && r.state.db[Store.Address(cfg.prefix, key)] == Store.Item(value, Some(now + ttl.value))
              && r.out
  {
    if ttl.None? then Forever(st, cfg, key, value, now)
    else
      var seconds := ttl.value;
      var index := if seconds > 0 then AddEntry(st.index, cfg.tags, key, ttl, Always, now) else st.index;
      if seconds <= 0 then Forget(State(st.db, index), cfg, key, now)
      else
        var w := Store.Put(st.db, cfg.prefix, key, value, seconds, now);
        Step(State(w.db, index), w.out)
  }

  /** A value put with a positive ttl, or with a null ttl under a key that
      needs no cleaning, is read back by get at the same moment (a stored null
      reads as a miss). */
  lemma PutThenGet(st: State, cfg: Config, key: string, value: Store.Value, ttl: Option<int>, default: Store.Value, now: int)
    ensures (ttl.Some? && ttl.value > 0) || (ttl.None? && IsClean(key)) ==>
              Get(Put(st, cfg, key, value, ttl, now).state, cfg, key, default, now) ==
              if value == Store.Null then default else value
  {
  }

  /** add: registers the key in every tag only when the ttl is not null and
      positive, and does so before delegating to the inherited add, whatever
      that returns. The inherited add is the parameter `parentAdd`. */
  function Add(st: State, cfg: Config, key: string, value: Store.Value, ttl: Option<int>, now: int,
               parentAdd: (State, string, Store.Value, Option<int>) -> Step<bool>): (r: Step<bool>)
    ensures ttl.Some? && ttl.value > 0 ==>
              r == parentAdd(State(st.db, AddEntry(st.index, cfg.tags, key, ttl, Always, now)), key, value, ttl)
    ensures ttl.None? || ttl.value <= 0 ==> r == parentAdd(st, key, value, ttl)
  {
    var index := if ttl.Some? && ttl.value > 0 then AddEntry(st.index, cfg.tags, key, ttl, Always, now) else st.index;
    parentAdd(State(st.db, index), key, value, ttl)
  }

  /** remember: a cached non-null value is returned without any write;
      otherwise the produced value is put with the ttl and returned. */
  function Remember(st: State, cfg: Config, key: string, ttl: Option<int>, produced: Store.Value, now: int)
    : (r: Step<Store.Value>)
    ensures Get(st, cfg, key, Store.Null, now) != Store.Null ==>
              r == Step(st, Get(st, cfg, key, Store.Null, now))
    ensures Get(st, cfg, key, Store.Null, now) == Store.Null ==>
              r == Step(Put(st, cfg, key, produced, ttl, now).state, produced)
    ensures produced != Store.Null && ((ttl.Some? && ttl.value > 0) || (ttl.None? && IsClean(key))) ==>
              Get(r.state, cfg, key, Store.Null, now) == r.out
  {
    var cached := Get(st, cfg, key, Store.Null, now);
    if cached != Store.Null then Step(st, cached)
    else Step(Put(st, cfg, key, produced, ttl, now).state, produced)
  }

  /** rememberForever: as remember, storing a produced value with forever. */
  function RememberForever(st: State, cfg: Config, key: string, produced: Store.Value, now: int)
    : (r: Step<Store.Value>)
    ensures Get(st, cfg, key, Store.Null, now) != Store.Null ==>
              r == Step(st, Get(st, cfg, key, Store.Null, now))
    ensures Get(st, cfg, key, Store.Null, now) == Store.Null ==>
              r == Step(Forever(st, cfg, key, produced, now).state, produced)
    ensures produced != Store.Null && IsClean(key) ==> Get(r.state, cfg, key, Store.Null, now) == r.out
  {
    var cached := Get(st, cfg, key, Store.Null, now);
    if cached != Store.Null then Step(st, cached)
    else Step(Forever(st, cfg, key, produced, now).state, produced)
  }

  /** A second remember of the same key returns the first one's value and
      writes nothing, whatever the second producer gives, when the first value
      was stored where get reads it. */
  lemma RememberTwice(st: State, cfg: Config, key: string, ttl: Option<int>, first: Store.Value,
                      second: Store.Value, now: int)
    requires (ttl.Some? && ttl.value > 0) || (ttl.None? && IsClean(key))
    requires first != Store.Null
    ensures var r1 := Remember(st, cfg, key, ttl, first, now);
      var r2 := Remember(r1.state, cfg, key, ttl, second, now);
      r1.out != Store.Null && r2 == Step(r1.state, r1.out)
  {
    var r1 := Remember(st, cfg, key, ttl, first, now);
    if Get(st, cfg, key, Store.Null, now) == Store.Null {
      PutThenGet(st, cfg, key, first, ttl, Store.Null, now);
    }
  }

  /** As written, rememberForever under a key that needs cleaning misses its
      own value: a second call runs the producer again and returns its value. */
  lemma RememberForeverRerunsProducer(st: State, cfg: Config, key: string, first: Store.Value,
                                      second: Store.Value, now: int)
    requires !IsClean(key) && !Store.Live(st.db, Store.Address(cfg.prefix, key), now)
    requires first != Store.Null
    ensures var r1 := RememberForever(st, cfg, key, first, now);
      var r2 := RememberForever(r1.state, cfg, key, second, now);
      r1.out == first && r2.out == second
  {
    ForeverThenGet(st, cfg, key, first, now);
  }

  /** increment: registers the key in every tag with the default TTL only where
      it is absent (NX), so an existing score never changes, then INCRBY. A
      missing key counts as 0; a refused INCRBY leaves the store as it was,
      after the tag entry was made. */
  function Increment(st: State, cfg: Config, key: string, delta: int, now: int): (r: Step<Result<int>>)
    ensures r.state.index == AddEntry(st.index, cfg.tags, key, None, OnlyIfAbsent, now)
    ensures forall id :: id in TagIds(cfg.tags.names) && key in SetOf(st.index, id) ==>
              r.state.index[id][key] == st.index[id][key]
    ensures !Store.Live(st.db, Store.Address(cfg.prefix, key), now) ==> r.out == Ok(delta)
    ensures Store.Live(st.db, Store.Address(cfg.prefix, key), now) ==>
              match Store.AsInteger(Store.Get(st.db, cfg.prefix, key, now))
              case Some(n) => r.out == Ok(n + delta)
              case None => r.out.Err? && r.state.db == st.db
    ensures r.out.Ok? ==> Get(r.state, cfg, key, Store.Null, now) == Store.Num(r.out.value)
    ensures forall a :: a in st.db && a != Store.Address(cfg.prefix, key) ==> a in r.state.db && r.state.db[a] == st.db[a]
    ensures r.state.db == Store.IncrBy(st.db, cfg.prefix, key, delta, now).db
    ensures r.out.Ok? ==> r.state.db.Keys == st.db.Keys + {Store.Address(cfg.prefix, key)}
    ensures r.out.Err? ==> r.state.db == st.db
  {
    AddEntryOnlyIfAbsent(st.index, cfg.tags, key, None, now);
    var index := AddEntry(st.index, cfg.tags, key, None, OnlyIfAbsent, now);
    var w := Store.IncrBy(st.db, cfg.prefix, key, delta, now);
    Step(State(w.db, index), w.out)
  }

  /** decrement: as increment, with DECRBY. */
  function Decrement(st: State, cfg: Config, key: string, delta: int, now: int): (r: Step<Result<int>>)
    ensures r.state.index == AddEntry(st.index, cfg.tags, key, None, OnlyIfAbsent, now)
    ensures forall id :: id in TagIds(cfg.tags.names) && key in SetOf(st.index, id) ==>
              r.state.index[id][key] == st.index[id][key]
    ensures !Store.Live(st.db, Store.Address(cfg.prefix, key), now) ==> r.out == Ok(-delta)
    ensures Store.Live(st.db, Store.Address(cfg.prefix, key), now) ==>
              match Store.AsInteger(Store.Get(st.db, cfg.prefix, key, now))
              case Some(n) => r.out == Ok(n - delta)
              case None => r.out.Err? && r.state.db == st.db
    ensures r.out.Ok? ==> Get(r.state, cfg, key, Store.Null, now) == Store.Num(r.out.value)
    ensures forall a :: a in st.db && a != Store.Address(cfg.prefix, key) ==> a in r.state.db && r.state.db[a] == st.db[a]
    ensures r.state.db == Store.DecrBy(st.db, cfg.prefix, key, delta, now).db
    ensures r.out.Ok? ==> r.state.db.Keys == st.db.Keys + {Store.Address(cfg.prefix, key)}
    ensures r.out.Err? ==> r.state.db == st.db
  {
    AddEntryOnlyIfAbsent(st.index, cfg.tags, key, None, now);
    var index := AddEntry(st.index, cfg.tags, key, None, OnlyIfAbsent, now);
    var w := Store.DecrBy(st.db, cfg.prefix, key, delta, now);
    Step(State(w.db, index), w.out)
  }

  /** Incrementing and then decrementing by the same amount restores a stored
      integer, and the tag index ends as after a single NX entry. */
  lemma IncrementThenDecrement(st: State, cfg: Config, key: string, n: int, delta: int, now: int)
    requires Get(st, cfg, key, Store.Null, now) == Store.Num(n)
    ensures var up := Increment(st, cfg, key, delta, now);
      var down := Decrement(up.state, cfg, key, delta, now);
      && up.out == Ok(n + delta)
      && Get(up.state, cfg, key, Store.Null, now) == Store.Num(n + delta)
      && down.out == Ok(n)
      && Get(down.state, cfg, key, Store.Null, now) == Store.Num(n)
      && down.state.index == AddEntry(st.index, cfg.tags, key, None, OnlyIfAbsent, now)
  {
    AddEntryIdempotent(st.index, cfg.tags, key, None, OnlyIfAbsent, now);
  }

  /** A numeric string put into the cache is counted from by increment. */
  lemma PutNumericTextThenIncrement(st: State, cfg: Config, key: string, now: int)
    ensures var st' := Put(st, cfg, key, Store.Text("10"), Some(5), now).state;
      Increment(st', cfg, key, 5, now).out == Ok(15)
  {
    Store.IncrByNumericText(cfg.prefix, key, now);
  }
}

=== FILE: cleans_keys.dfy ===
/** Key cleaning (CleansKeys::cleanKey). PSR-6 forbids the characters `{}()/\@:`
    in cache keys, so cleanKey replaces each of them with a substitute character.

    The source hands str_replace a search list (RESERVED_CHARACTERS split into
    characters) and a replacement list (the VALUES of RESERVED_CHARACTERS_MAP).
    str_replace pairs the two lists by position, so the map's keys play no part:
    `{` becomes `.`, `}` becomes character 1, ..., `:` becomes character 7. */
module CleansKeys {

  /** RESERVED_CHARACTERS, in declaration order. */
  const Reserved: string := "{}()/\\@:"

  /** The values of RESERVED_CHARACTERS_MAP, in declaration order
      (PHP's "\1" .. "\7" are octal escapes for the bytes 1 .. 7). */
  const Substitutes: string :=
    ['.', 1 as char, 2 as char, 3 as char, 4 as char, 5 as char, 6 as char, 7 as char]

  predicate IsReserved(c: char) {
    c in Reserved
  }

  /** True iff no character of `s` is reserved. */
  predicate IsClean(s: string) {
    forall j :: 0 <= j < |s| ==> !IsReserved(s[j])
  }

  /** Reference definition: the character one input character is cleaned to,
      as a single simultaneous table lookup. */
  function CleanChar(c: char): (d: char)
    ensures !IsReserved(d)
    ensures !IsReserved(c) ==> d == c
    ensures forall i :: 0 <= i < |Reserved| && Reserved[i] == c ==> d == Substitutes[i]
  {
    match c
    case '{' => '.'
    case '}' => 1 as char
    case '(' => 2 as char
    case ')' => 3 as char
    case '/' => 4 as char
    case '\\' => 5 as char
    case '@' => 6 as char
    case ':' => 7 as char
    case _ => c
  }

  /** str_replace with one search character: every occurrence of `search`
      becomes `replace`. */
  function ReplaceAll(s: string, search: char, replace: char): (r: string)
    ensures |r| == |s|
    ensures forall j :: 0 <= j < |s| ==> r[j] == if s[j] == search then replace else s[j]
  {
    if |s| == 0 then []
    else [if s[0] == search then replace else s[0]] + ReplaceAll(s[1..], search, replace)
  }

  /** What the pairs i .. 7 of the sequential replacement do to one character. */
  function CharFrom(c: char, i: nat): char
    requires i <= |Reserved|
    decreases |Reserved| - i
  {
    if i == |Reserved| then c
    else CharFrom(if c == Reserved[i] then Substitutes[i] else c, i + 1)
  }

  /** str_replace with search and replacement lists: pair `i` is applied to the
      result of pairs 0 .. i-1, in list order. Position by position, the whole
      string goes through the pairs as each character would on its own. */
  function ReplaceFrom(s: string, i: nat): (r: string)
    requires i <= |Reserved|
    ensures |r| == |s|
    ensures forall j :: 0 <= j < |s| ==> r[j] == CharFrom(s[j], i)
    decreases |Reserved| - i
  {
    if i == |Reserved| then s
    else ReplaceFrom(ReplaceAll(s, Reserved[i], Substitutes[i]), i + 1)
  }

  /** A character outside the reserved set passes every pair unchanged. */
  lemma {:induction false} CharFromUntouched(c: char, i: nat)
    requires i <= |Reserved|
    requires !IsReserved(c)
    ensures CharFrom(c, i) == c
    decreases |Reserved| - i
  {
    if i < |Reserved| {
      CharFromUntouched(c, i + 1);
    }
  }

  /** A reserved character is replaced by its own pair and, since no substitute
      is reserved, no later pair touches the substitute. */
  lemma {:induction false} CharFromHit(c: char, i: nat, k: nat)
    requires i <= k < |Reserved| && Reserved[k] == c
    ensures CharFrom(c, i) == Substitutes[k]
    decreases k - i
  {
    if i == k {
      assert !IsReserved(Substitutes[k]);
      CharFromUntouched(Substitutes[k], k + 1);
    } else {
      assert Reserved[i] != Reserved[k];
      CharFromHit(c, i + 1, k);
    }
  }

  /** Sequential replacement, as str_replace performs it, agrees with the
      simultaneous per-character table. */
  lemma SequentialIsSimultaneous(c: char)
    ensures CharFrom(c, 0) == CleanChar(c)
  {
    if IsReserved(c) {
      var k :| 0 <= k < |Reserved| && Reserved[k] == c;
      CharFromHit(c, 0, k);
    } else {
      CharFromUntouched(c, 0);
    }
  }

  lemma SequentialReplacementPointwise(key: string)
    ensures forall j :: 0 <= j < |key| ==> ReplaceFrom(key, 0)[j] == CleanChar(key[j])
  {
    forall j | 0 <= j < |key| {
      SequentialIsSimultaneous(key[j]);
    }
  }

  /** cleanKey: each character is replaced by exactly one character, reserved
      characters by their positional substitute, all others left in place. */
  function CleanKey(key: string): (r: string)
    ensures |r| == |key|
    ensures forall j :: 0 <= j < |key| ==> r[j] == CleanChar(key[j])
    ensures IsClean(r)
    ensures forall j :: 0 <= j < |key| && !IsReserved(key[j]) ==> r[j] == key[j]
    ensures forall j, i :: 0 <= j < |key| && 0 <= i < |Reserved| && key[j] == Reserved[i] ==>
              r[j] == Substitutes[i]
  {
    SequentialReplacementPointwise(key);
    ReplaceFrom(key, 0)
  }

  /** A key is left unchanged by cleaning exactly when it is already clean. */
  lemma CleanKeyFixedPoint(key: string)
    ensures CleanKey(key) == key <==> IsClean(key)
  {
    if IsClean(key) {
      assert forall j :: 0 <= j < |key| ==> CleanKey(key)[j] == key[j];
    } else {
      var j :| 0 <= j < |key| && IsReserved(key[j]);
      assert CleanKey(key)[j] != key[j];
    }
  }

  /** Cleaning is idempotent. */
  lemma CleanKeyIdempotent(key: string)
    ensures CleanKey(CleanKey(key)) == CleanKey(key)
  {
    CleanKeyFixedPoint(CleanKey(key));
  }

  /** Cleaning is not injective: `.` is itself a legal key character and is
      also the substitute of `{`. */
  lemma CleanKeyNotInjective()
    ensures "a{b" != "a.b" && CleanKey("a{b") == CleanKey("a.b")
  {
    var x, y := CleanKey("a{b"), CleanKey("a.b");
    assert x[0] == 'a' && x[1] == '.' && x[2] == 'b';
    assert y[0] == 'a' && y[1] == '.' && y[2] == 'b';
    assert "a{b"[1] != "a.b"[1];
  }
}

=== FILE: retrieves_keys.dfy ===
/** Key lookup (RetrievesKeys::getKey): a linear, first-match search over the
    tag set's entries, comparing the text of each entry after the key prefix
    with the requested key.

    TagSet::KEY_PREFIX and the fallback itemKey are defined outside this
    model; they are parameters here. */
module RetrievesKeys {
  import opened Wrappers
  import opened TagSets

  /** `p` occurs in `s` starting at position `i`. */
  predicate OccursAt(s: string, p: string, i: nat) {
    i + |p| <= |s| && s[i..i + |p|] == p
  }

  ghost predicate Occurs(s: string, p: string) {
    exists i: nat :: OccursAt(s, p, i)
  }

  /** The first position at or after `from` where `p` occurs in `s`. */
  function FirstOccurrence(s: string, p: string, from: nat): (r: Option<nat>)
    ensures r.Some? ==> from <= r.value && OccursAt(s, p, r.value)
    ensures r.Some? ==> forall j: nat :: from <= j < r.value ==> !OccursAt(s, p, j)
    ensures r.None? ==> forall j: nat :: from <= j ==> !OccursAt(s, p, j)
    decreases |s| - from
  {
    if from + |p| > |s| then None
    else if s[from..from + |p|] == p then Some(from)
    else FirstOccurrence(s, p, from + 1)
  }

  /** Laravel's Str::after: the text after the first occurrence of `search`,
      or the whole subject when `search` is empty or does not occur. */
  function After(subject: string, search: string): (r: string)
    ensures |r| <= |subject| && r == subject[|subject| - |r|..]
    ensures search == [] ==> r == subject
    ensures !Occurs(subject, search) ==> r == subject
    ensures search != [] && Occurs(subject, search) ==>
              exists i: nat :: OccursAt(subject, search, i) && r == subject[i + |search|..] &&
                forall j: nat :: j < i ==> !OccursAt(subject, search, j)
  {
    if search == [] then subject
    else match FirstOccurrence(subject, search, 0)
      case None => subject
      case Some(i) => subject[i + |search|..]
  }

  /** An entry written as prefix + key is found again under key. */
  lemma AfterOwnPrefix(prefix: string, key: string)
    ensures After(prefix + key, prefix) == key
  {
    if prefix != [] {
      assert OccursAt(prefix + key, prefix, 0);
      assert (prefix + key)[|prefix|..] == key;
    }
  }

  /** The comparison getKey makes for one entry. */
  predicate Matches(entry: string, key: string, keyPrefix: string) {
    After(entry, keyPrefix) == key
  }

  /** An entry that lacks the prefix is compared whole. */
  lemma UnprefixedEntryComparedWhole(entry: string, key: string, keyPrefix: string)
    requires !Occurs(entry, keyPrefix)
    ensures Matches(entry, key, keyPrefix) <==> entry == key
  {
  }

  /** getKey: [true, entry] for the first entry of the tag set that matches the
      key, otherwise [false, itemKey(key)]. */
  method GetKey(tags: TagSet, scans: Scans, default: Option<string>, key: string, keyPrefix: string,
                itemKey: string -> string)
    returns (found: bool, k: string)
    ensures var entries := TagEntries(tags, scans, default);
      found ==> exists i :: 0 <= i < |entries| && entries[i] == k && Matches(k, key, keyPrefix) &&
                  forall j :: 0 <= j < i ==> !Matches(entries[j], key, keyPrefix)
    ensures var entries := TagEntries(tags, scans, default);
      !found ==> k == itemKey(key) && forall e :: e in entries ==> !Matches(e, key, keyPrefix)
  {
    var entries := TagEntries(tags, scans, default);
    var i := 0;
    while i < |entries|
      invariant 0 <= i <= |entries|
      invariant forall j :: 0 <= j < i ==> !Matches(entries[j], key, keyPrefix)
    {
      if Matches(entries[i], key, keyPrefix) {
        return true, entries[i];
      }
      i := i + 1;
    }
    return false, itemKey(key);
  }
}

=== FILE: store.dfy ===
/** The Redis store the tagged cache writes through (Store, a RedisStore).

    Store overrides two methods: `tags`, which cleans every tag name, and
    `forever`, which cleans the key and writes it with an expiry of
    DEFAULT_CACHE_TTL seconds. The other commands are inherited from Laravel's
    RedisStore, which addresses `prefix + key` without cleaning (Address).
    Because of that a key holding a reserved character is written by `forever`
    at one address and read by `get` at another; ForeverThenGet and
    ForeverThenGetMisses exhibit the miss. GetCleaned reads the cleaned address
    (CleanAddress), the consistent addressing under which ForeverThenGetCleaned
    proves the read-back for every key.

    Values carry an optional expiry timestamp; an item is live while `now` is
    before its expiry. RedisStore stores a numeric value unserialized, so
    INCRBY accepts a stored decimal integer string. Connection failures are not
    modelled, so a write is always acknowledged. */
module Store {
  import opened Wrappers
  import opened CleansKeys
  import opened TagSets

  /** A cached PHP value, as far as the tagged cache distinguishes values. */
  datatype Value = Null | Num(n: int) | Text(s: string)

  /** A stored value and the timestamp at which it expires (None: never). */
  datatype Item = Item(value: Value, expiresAt: Option<int>)

  /** The store's keyspace: address -> item. */
  type Db = map<string, Item>

  /** The store after a command, and the command's reply. */
  datatype Reply<T> = Reply(db: Db, out: T)

  /** Store::tags: the tag set of the cleaned tag names, in order. */
  function Tags(names: seq<string>): (t: TagSet)
    ensures |t.names| == |names|
    ensures forall i :: 0 <= i < |names| ==> t.names[i] == CleanKey(names[i])
  {
    if |names| == 0 then TagSet([]) else TagSet([CleanKey(names[0])] + Tags(names[1..]).names)
  }

  /** No tag id of a tag set made by `tags` holds a reserved character. */
  lemma TagsHaveCleanIds(names: seq<string>)
    ensures forall id :: id in TagIds(Tags(names).names) ==> IsClean(id)
  {
    var ids := TagIds(Tags(names).names);
    forall id | id in ids
      ensures IsClean(id)
    {
      var i :| 0 <= i < |ids| && ids[i] == id;
      var name := Tags(names).names[i];
      assert id == TagPrefix + name;
      assert IsClean(TagPrefix);
      assert IsClean(name);
    }
  }

  predicate Live(db: Db, addr: string, now: int) {
    addr in db && (db[addr].expiresAt.None? || now < db[addr].expiresAt.value)
  }

  /** GET: the value of a live item, null otherwise. */
  function Read(db: Db, addr: string, now: int): Value {
    if Live(db, addr, now) then db[addr].value else Null
  }

  /** The address RedisStore gives a key: the store prefix and the key as is. */
  function Address(prefix: string, key: string): string {
    prefix + key
  }

  /** The address Store::forever gives a key: the prefix and the cleaned key. */
  function CleanAddress(prefix: string, key: string): string {
    prefix + CleanKey(key)
  }

  /** Distinct keys have distinct addresses under one prefix. */
  lemma AddressInjective(prefix: string, k1: string, k2: string)
    ensures Address(prefix, k1) == Address(prefix, k2) <==> k1 == k2
  {
    if Address(prefix, k1) == Address(prefix, k2) {
      assert k1 == Address(prefix, k1)[|prefix|..];
    }
  }

  /** A key needing no cleaning has the same address for forever as for the
      inherited commands, and a key and its cleaned form share a clean address. */
  lemma CleanAddressOfCleanKey(prefix: string, key: string)
    ensures IsClean(key) ==> CleanAddress(prefix, key) == Address(prefix, key)
    ensures CleanAddress(prefix, CleanKey(key)) == CleanAddress(prefix, key)
  {
    CleanKeyFixedPoint(key);
    CleanKeyIdempotent(key);
  }

  /** RedisStore::get: the live item at `prefix + key`, otherwise null. */
  function Get(db: Db, prefix: string, key: string, now: int): (v: Value)
    ensures Live(db, Address(prefix, key), now) ==> v == db[Address(prefix, key)].value
    ensures !Live(db, Address(prefix, key), now) ==> v == Null
  {
    Read(db, Address(prefix, key), now)
  }

  /** A get that reads the cleaned address, as forever writes it. */
  function GetCleaned(db: Db, prefix: string, key: string, now: int): (v: Value)
    ensures Live(db, CleanAddress(prefix, key), now) ==> v == db[CleanAddress(prefix, key)].value
    ensures !Live(db, CleanAddress(prefix, key), now) ==> v == Null
  {
    Read(db, CleanAddress(prefix, key), now)
  }

  /** RedisStore::put: SETEX with `max(1, seconds)`; the reply is acknowledged. */
  function Put(db: Db, prefix: string, key: string, value: Value, seconds: int, now: int): (r: Reply<bool>)
    ensures r.out
    ensures r.db.Keys == db.Keys + {Address(prefix, key)}
    ensures forall a :: a in db && a != Address(prefix, key) ==> r.db[a] == db[a]
    ensures r.db[Address(prefix, key)].expiresAt == Some(now + if seconds < 1 then 1 else seconds)
    ensures Get(r.db, prefix, key, now) == value
  {
    var ttl := if seconds < 1 then 1 else seconds;
    Reply(db[Address(prefix, key) := Item(value, Some(now + ttl))], true)
  }

  /** A put under one key leaves what get returns for every other key as it
      was, even when the two keys clean to the same string. */
  lemma PutKeepsOtherKeys(db: Db, prefix: string, key: string, other: string, value: Value, seconds: int, now: int)
    requires other != key
    ensures Get(Put(db, prefix, key, value, seconds, now).db, prefix, other, now) == Get(db, prefix, other, now)
  {
    AddressInjective(prefix, key, other);
  }

  /** Store::forever: SET with EX DEFAULT_CACHE_TTL under the cleaned key; the
      expiry is the score addEntry gives a null ttl. */
  function Forever(db: Db, prefix: string, key: string, value: Value, now: int): (r: Reply<bool>)
    ensures r.out
    ensures r.db.Keys == db.Keys + {CleanAddress(prefix, key)}
    ensures forall a :: a in db && a != CleanAddress(prefix, key) ==> r.db[a] == db[a]
    ensures r.db[CleanAddress(prefix, key)] == Item(value, Some(ExpiryScore(None, now)))
  {
    var k := CleanKey(key);
    Reply(db[prefix + k := Item(value, Some(now + DefaultCacheTtl))], true)
  }

  /** As written, the inherited get finds a value stored by forever exactly
      when the key needs no cleaning (given nothing else live at `prefix + key`). */
  lemma ForeverThenGet(db: Db, prefix: string, key: string, value: Value, now: int)
    requires !Live(db, Address(prefix, key), now) && value != Null
    ensures Get(Forever(db, prefix, key, value, now).db, prefix, key, now) == value <==> IsClean(key)
  {
    CleanKeyFixedPoint(key);
    if !IsClean(key) {
      assert CleanKey(key) != key;
      assert (prefix + CleanKey(key))[|prefix|..] == CleanKey(key);
      assert (prefix + key)[|prefix|..] == key;
    }
  }

  /** The concrete miss: forever(":", 1) then get(":") on an empty store. */
  lemma ForeverThenGetMisses()
    ensures Get(Forever(map[], "", ":", Num(1), 0).db, "", ":", 0) == Null
    ensures GetCleaned(Forever(map[], "", ":", Num(1), 0).db, "", ":", 0) == Num(1)
  {
    assert !IsClean(":") by {
      assert IsReserved(":"[0]);
    }
    ForeverThenGet(map[], "", ":", Num(1), 0);
    ForeverThenGetCleaned(map[], "", ":", Num(1), 0);
  }

  /** With the cleaned address read as well as written, a value written by
      forever is read back under the key and under its cleaned form. */
  lemma ForeverThenGetCleaned(db: Db, prefix: string, key: string, value: Value, now: int)
    ensures var db' := Forever(db, prefix, key, value, now).db;
      GetCleaned(db', prefix, key, now) == value && GetCleaned(db', prefix, CleanKey(key), now) == value
  {
    CleanAddressOfCleanKey(prefix, key);
  }

  /** RedisStore::forget: DEL; the reply says whether a live item was deleted. */
  function Forget(db: Db, prefix: string, key: string, now: int): (r: Reply<bool>)
    ensures r.out <==> Live(db, Address(prefix, key), now)
    ensures r.db.Keys == db.Keys - {Address(prefix, key)}
    ensures forall a :: a in r.db ==> r.db[a] == db[a]
    ensures Get(r.db, prefix, key, now) == Null
  {
    var a := Address(prefix, key);
    Reply(db - {a}, Live(db, a, now))
  }

  /** forget(k) does not reach an item forever(k) stored under a cleaned key
      that differs from k. */
  lemma ForgetMissesForeverItem(db: Db, prefix: string, key: string, value: Value, now: int)
    requires !IsClean(key)
    ensures var db' := Forever(db, prefix, key, value, now).db;
      GetCleaned(Forget(db', prefix, key, now).db, prefix, key, now) == value
  {
    CleanKeyFixedPoint(key);
    AddressInjective(prefix, key, CleanKey(key));
  }

  predicate IsDigit(c: char) {
    '0' <= c <= '9'
  }

  function DigitValue(c: char): nat
    requires IsDigit(c)
  {
    (c - '0') as nat
  }

  /** The number a string of decimal digits denotes. */
  function DigitsValue(s: string): nat
    requires forall i :: 0 <= i < |s| ==> IsDigit(s[i])
  {
    if |s| == 0 then 0 else 10 * DigitsValue(s[..|s| - 1]) + DigitValue(s[|s| - 1])
  }

  /** A string Redis accepts as an integer: "0", or an optional minus sign and
      digits without a leading zero. */
  predicate IsDecimal(s: string) {
    s == "0" ||
    (|s| > 0 && s[0] != '-' && s[0] != '0' && forall i :: 0 <= i < |s| ==> IsDigit(s[i])) ||
    (|s| > 1 && s[0] == '-' && s[1] != '0' && forall i :: 1 <= i < |s| ==> IsDigit(s[i]))
  }

  /** The integer a stored string denotes for INCRBY, if any. */
  function DecimalValue(s: string): (r: Option<int>)
    ensures r.Some? <==> IsDecimal(s)
    ensures r.Some? && |s| > 0 && s[0] == '-' ==> r.value <= 0
    ensures r.Some? && |s| > 0 && s[0] != '-' ==> r.value >= 0
  {
    if !IsDecimal(s) then None
    else if s[0] == '-' then
      assert forall i :: 0 <= i < |s| - 1 ==> s[1..][i] == s[i + 1];
      var n: int := DigitsValue(s[1..]);
      Some(-n)
    else Some(DigitsValue(s))
  }

  /** The integer INCRBY sees in a stored value: RedisStore stores a number
      as its decimal text and anything else serialized, so only a number or a
      decimal integer string counts. */
  function AsInteger(v: Value): Option<int> {
    match v
    case Num(n) => Some(n)
    case Text(t) => DecimalValue(t)
    case Null => None
  }

  /** increment: INCRBY. A missing or expired item counts as 0 and the result
      has no expiry; a live integer keeps its expiry; anything else is refused
      and nothing changes. */
  function IncrBy(db: Db, prefix: string, key: string, delta: int, now: int): (r: Reply<Result<int>>)
    ensures var a := Address(prefix, key);
      && (!Live(db, a, now) ==> r.out == Ok(delta) && a in r.db && r.db[a].expiresAt.None?)
      && (Live(db, a, now) && AsInteger(db[a].value).Some? ==>
            r.out == Ok(AsInteger(db[a].value).value + delta) && a in r.db && r.db[a].expiresAt == db[a].expiresAt)
      && (Live(db, a, now) && AsInteger(db[a].value).None? ==> r.out.Err? && r.db == db)
      && (r.out.Ok? ==> Get(r.db, prefix, key, now) == Num(r.out.value))
      && (forall b :: b in db && b != a ==> b in r.db && r.db[b] == db[b])
      && (r.out.Ok? ==> r.db.Keys == db.Keys + {a})
  {
    var a := Address(prefix, key);
    if !Live(db, a, now) then Reply(db[a := Item(Num(delta), None)], Ok(delta))
    else match AsInteger(db[a].value)
      case Some(n) => Reply(db[a := Item(Num(n + delta), db[a].expiresAt)], Ok(n + delta))
      case None => Reply(db, Err("value is not an integer or out of range"))
  }

  /** decrement: DECRBY, which is INCRBY by the negated amount. */
  function DecrBy(db: Db, prefix: string, key: string, delta: int, now: int): (r: Reply<Result<int>>)
    ensures var a := Address(prefix, key);
      && (!Live(db, a, now) ==> r.out == Ok(-delta) && a in r.db && r.db[a].expiresAt.None?)
      && (Live(db, a, now) && AsInteger(db[a].value).Some? ==>
            r.out == Ok(AsInteger(db[a].value).value - delta) && a in r.db && r.db[a].expiresAt == db[a].expiresAt)
      && (Live(db, a, now) && AsInteger(db[a].value).None? ==> r.out.Err? && r.db == db)
      && (r.out.Ok? ==> Get(r.db, prefix, key, now) == Num(r.out.value))
      && (forall b :: b in db && b != a ==> b in r.db && r.db[b] == db[b])
      && (r.out.Ok? ==> r.db.Keys == db.Keys + {a})
  {
    IncrBy(db, prefix, key, -delta, now)
  }

  /** A numeric string stored by put is counted from by increment. */
  lemma IncrByNumericText(prefix: string, key: string, now: int)
    ensures var db := Put(map[], prefix, key, Text("10"), 5, now).db;
      IncrBy(db, prefix, key, 5, now).out == Ok(15)
  {
    assert DigitsValue("10") == 10 by {
      assert "10"[..1] == "1";
      assert "1"[..0] == "";
    }
  }
}

=== FILE: tag_set.dfy ===
/** The tag set (TagSet): tag ids, the per-tag sorted sets that index tagged
    keys by expiry timestamp, and the cursor-paged enumeration of their members.

    Each tag's sorted set lives in the store under its tag id; here the whole
    tag index is a map from tag id to that tag's sorted set (member -> score).
    The clock is the parameter `now`, and a ZSCAN conversation is a supplied
    sequence of pages. */
module TagSets {
  import opened Wrappers

  /** TagSet::TAG_PREFIX, "tags\0". */
  const TagPrefix: string := "tags" + [0 as char]

  /** Cache::DEFAULT_CACHE_TTL, the offset in seconds used when no TTL is given. */
  const DefaultCacheTtl: int := 8640000

  /** A tag set is the ordered list of tag names it was created with. */
  datatype TagSet = TagSet(names: seq<string>)

  /** tagId: the tag's name behind the tag prefix; the name is recoverable. */
  function TagId(name: string): (id: string)
    ensures |id| == |TagPrefix| + |name|
    ensures id[..|TagPrefix|] == TagPrefix && id[|TagPrefix|..] == name
  {
    TagPrefix + name
  }

  /** Different names never share a tag id. */
  lemma TagIdInjective(a: string, b: string)
    ensures TagId(a) == TagId(b) <==> a == b
  {
    if TagId(a) == TagId(b) {
      assert a == TagId(a)[|TagPrefix|..];
    }
  }

  /** tagKey builds the same identifier as tagId. */
  function TagKey(name: string): (k: string)
    ensures k == TagId(name)
  {
    TagPrefix + name
  }

  /** tagIds: array_map of tagId over the names, in order. */
  function TagIds(names: seq<string>): (ids: seq<string>)
    ensures |ids| == |names|
    ensures forall i :: 0 <= i < |names| ==> ids[i] == TagId(names[i])
  {
    if |names| == 0 then [] else [TagId(names[0])] + TagIds(names[1..])
  }

  // ---------------------------------------------------------------------------
  // The index and addEntry
  // ---------------------------------------------------------------------------

  /** One tag's sorted set: member -> score (an expiry timestamp). */
  type SortedSet = map<string, int>

  /** The tag index: tag id -> sorted set. A missing id is an empty set. */
  type Index = map<string, SortedSet>

  /** The `$updateWhen` argument of addEntry: absent, or the ZADD flag NX
      (only add a member that is not yet present). */
  datatype UpdateWhen = Always | OnlyIfAbsent

  function SetOf(index: Index, id: string): SortedSet {
    if id in index then index[id] else map[]
  }

  /** One ZADD of `member` with `score` into a sorted set. */
  function ZAdd(s: SortedSet, member: string, score: int, when: UpdateWhen): (r: SortedSet)
    ensures r.Keys == s.Keys + {member}
    ensures member in s && when == OnlyIfAbsent ==> r[member] == s[member]
    ensures member !in s || when == Always ==> r[member] == score
    ensures forall m :: m in s && m != member ==> r[m] == s[m]
  {
    if when == OnlyIfAbsent && member in s then s else s[member := score]
  }

  lemma ZAddIdempotent(s: SortedSet, member: string, score: int, when: UpdateWhen)
    ensures ZAdd(ZAdd(s, member, score, when), member, score, when) == ZAdd(s, member, score, when)
  {
  }

  /** The score addEntry writes: now + ttl, with DEFAULT_CACHE_TTL for a null ttl. */
  function ExpiryScore(ttl: Option<int>, now: int): int {
    now + (if ttl.None? then DefaultCacheTtl else ttl.value)
  }

  /** The loop of addEntry: one ZADD into the set of every id, in order. An id
      listed twice is added to twice, which ZADD's idempotence makes harmless. */
  function AddToAll(index: Index, ids: seq<string>, member: string, score: int, when: UpdateWhen): (r: Index)
    ensures forall id :: id in ids ==> id in r && r[id] == ZAdd(SetOf(index, id), member, score, when)
    ensures forall id :: id !in ids ==> (id in r <==> id in index)
    ensures forall id :: id !in ids && id in index ==> r[id] == index[id]
    decreases |ids|
  {
    if |ids| == 0 then index
    else
      var id := ids[0];
      ZAddIdempotent(SetOf(index, id), member, score, when);
      AddToAll(index[id := ZAdd(SetOf(index, id), member, score, when)], ids[1..], member, score, when)
  }

  /** addEntry(key, ttl, updateWhen) on the tag index: the key is ZADDed into
      the set of every tag of the tag set, scored now + ttl; no other set
      changes. */
  function AddEntry(index: Index, tags: TagSet, key: string, ttl: Option<int>, when: UpdateWhen, now: int): (r: Index)
    ensures forall name :: name in tags.names ==>
              TagId(name) in r && r[TagId(name)] == ZAdd(SetOf(index, TagId(name)), key, ExpiryScore(ttl, now), when)
    ensures forall id :: id !in TagIds(tags.names) ==> SetOf(r, id) == SetOf(index, id)
  {
    var ids := TagIds(tags.names);
    assert forall name :: name in tags.names ==> TagId(name) in ids by {
      forall name | name in tags.names
        ensures TagId(name) in ids
      {
        var i :| 0 <= i < |tags.names| && tags.names[i] == name;
        assert ids[i] == TagId(name);
      }
    }
    AddToAll(index, TagIds(tags.names), key, ExpiryScore(ttl, now), when)
  }

  /** A null ttl scores the key at now + DEFAULT_CACHE_TTL in every tag's set. */
  lemma AddEntryDefaultTtl(index: Index, tags: TagSet, key: string, now: int)
    ensures forall name :: name in tags.names ==>
              TagId(name) in AddEntry(index, tags, key, None, Always, now) &&
              AddEntry(index, tags, key, None, Always, now)[TagId(name)][key] == now + DefaultCacheTtl
  {
    var ids := TagIds(tags.names);
    forall name | name in tags.names
      ensures TagId(name) in ids
    {
      var i :| 0 <= i < |tags.names| && tags.names[i] == name;
      assert ids[i] == TagId(name);
    }
  }

  /** Plain addEntry sets key -> now + ttl in every set named by the tag ids,
      changes no other member of those sets, and changes no other set. */
  lemma AddEntryPlain(index: Index, tags: TagSet, key: string, ttl: int, now: int)
    ensures var r := AddEntry(index, tags, key, Some(ttl), Always, now);
      && (forall id :: id in TagIds(tags.names) ==> id in r && key in r[id] && r[id][key] == now + ttl)
      && (forall id, m :: id in TagIds(tags.names) && m in SetOf(index, id) && m != key ==>
            m in r[id] && r[id][m] == SetOf(index, id)[m])
      && (forall id :: id in TagIds(tags.names) ==> r[id].Keys == SetOf(index, id).Keys + {key})
      && (forall id :: id !in TagIds(tags.names) ==> SetOf(r, id) == SetOf(index, id))
  {
  }

  /** addEntry with NX keeps an existing member's score and inserts an absent
      member at now + ttl. */
  lemma AddEntryOnlyIfAbsent(index: Index, tags: TagSet, key: string, ttl: Option<int>, now: int)
    ensures var r := AddEntry(index, tags, key, ttl, OnlyIfAbsent, now);
      && (forall id :: id in TagIds(tags.names) && key in SetOf(index, id) ==>
            r[id][key] == SetOf(index, id)[key])
      && (forall id :: id in TagIds(tags.names) && key !in SetOf(index, id) ==>
            r[id][key] == ExpiryScore(ttl, now))
      && (forall id :: id !in TagIds(tags.names) ==> SetOf(r, id) == SetOf(index, id))
  {
  }

  /** With a fixed clock, adding the same entry twice is the same as once. */
  lemma AddEntryIdempotent(index: Index, tags: TagSet, key: string, ttl: Option<int>, when: UpdateWhen, now: int)
    ensures var once := AddEntry(index, tags, key, ttl, when, now);
      AddEntry(once, tags, key, ttl, when, now) == once
  {
    var ids := TagIds(tags.names);
    var score := ExpiryScore(ttl, now);
    var once := AddEntry(index, tags, key, ttl, when, now);
    var twice := AddEntry(once, tags, key, ttl, when, now);
    forall id | id in ids
      ensures twice[id] == once[id]
    {
      ZAddIdempotent(SetOf(index, id), key, score, when);
    }
    assert twice.Keys == once.Keys;
  }

  // ---------------------------------------------------------------------------
  // entries(): cursor-paged enumeration
  // ---------------------------------------------------------------------------

  /** One ZSCAN reply: the next cursor and the page's members, or None when the
      reply was not an array. */
  datatype Page = Page(cursor: string, members: Option<seq<string>>)

  /** The ZSCAN replies the store gives for each tag id, in order. A tag id with
      no supplied replies yields nothing. */
  type Scans = map<string, seq<Page>>

  function ScansOf(scans: Scans, id: string): seq<Page> {
    if id in scans then scans[id] else []
  }

  /** The do-while condition: `(string) $cursor !== $defaultCursorValue`. A null
      default cursor (None) is never identical to a string, so only a non-array
      reply can end that scan. */
  predicate Continues(cursor: string, default: Option<string>) {
    default.None? || cursor != default.value
  }

  /** The position of the first occurrence of `x` in `s`. */
  function FirstIndex(s: seq<string>, x: string): (i: nat)
    requires x in s
    ensures i < |s| && s[i] == x
    ensures forall j :: 0 <= j < i ==> s[j] != x
  {
    if s[0] == x then 0 else 1 + FirstIndex(s[1..], x)
  }

  /** Appending an element does not move the first occurrence of an element
      already present. */
  lemma {:induction false} FirstIndexAppend(s: seq<string>, c: string, x: string)
    requires x in s
    ensures FirstIndex(s + [c], x) == FirstIndex(s, x)
  {
    var i := FirstIndex(s, x);
    var k := FirstIndex(s + [c], x);
    assert (s + [c])[i] == x;
  }

  /** array_unique: the distinct members of the page, each once, in the order
      of their first occurrence. */
  function Dedup(s: seq<string>): (r: seq<string>)
    ensures forall x :: x in r <==> x in s
    ensures forall i, j :: 0 <= i < j < |r| ==> r[i] != r[j]
    ensures forall i, j :: 0 <= i < j < |r| ==> FirstIndex(s, r[i]) < FirstIndex(s, r[j])
    ensures |r| <= |s|
  {
    if |s| == 0 then []
    else
      var init := s[..|s| - 1];
      var c := s[|s| - 1];
      var front := Dedup(init);
      assert s == init + [c];
      assert forall x :: x in init ==> FirstIndex(s, x) == FirstIndex(init, x) by {
        forall x | x in init
          ensures FirstIndex(s, x) == FirstIndex(init, x)
        {
          FirstIndexAppend(init, c, x);
        }
      }
      if c in front then front
      else
        assert FirstIndex(s, c) == |init|;
        front + [c]
  }

  predicate PageHolds(p: Page, x: string) {
    p.members.Some? && x in p.members.value
  }

  /** Page `k` is fetched: every earlier reply was an array and its cursor
      let the do-while go on. */
  predicate Reaches(pages: seq<Page>, k: int, default: Option<string>) {
    0 <= k <= |pages| &&
    forall j :: 0 <= j < k ==> pages[j].members.Some? && Continues(pages[j].cursor, default)
  }

  /** The members one tag's scan yields: the deduplicated members of every
      fetched array page, in page order. A non-array reply ends the scan; after
      an array reply (empty or not) the scan goes on while the cursor differs
      from the default. When the supplied replies run out, the scan ends. */
  function ScanTag(pages: seq<Page>, default: Option<string>): (r: seq<string>)
    ensures forall x :: x in r <==>
              exists k :: 0 <= k < |pages| && Reaches(pages, k, default) && PageHolds(pages[k], x)
  {
    if |pages| == 0 then []
    else match pages[0].members
      case None =>
        assert forall k :: 0 < k < |pages| ==> !Reaches(pages, k, default);
        []
      case Some(ms) =>
        var rest := if Continues(pages[0].cursor, default) then ScanTag(pages[1..], default) else [];
        assert forall x :: x in Dedup(ms) + rest <==>
                 exists k :: 0 <= k < |pages| && Reaches(pages, k, default) && PageHolds(pages[k], x) by {
          forall x
            ensures x in Dedup(ms) + rest <==>
                    exists k :: 0 <= k < |pages| && Reaches(pages, k, default) && PageHolds(pages[k], x)
          {
            if x in rest {
              var k :| 0 <= k < |pages| - 1 && Reaches(pages[1..], k, default) && PageHolds(pages[1..][k], x);
              assert Reaches(pages, k + 1, default) by {
                forall j | 1 <= j < k + 1
                  ensures pages[j].members.Some? && Continues(pages[j].cursor, default)
                {
                  assert pages[j] == pages[1..][j - 1];
                }
              }
              assert PageHolds(pages[k + 1], x);
            } else if x in Dedup(ms) {
              assert Reaches(pages, 0, default) && PageHolds(pages[0], x);
            }
            if exists k :: 0 <= k < |pages| && Reaches(pages, k, default) && PageHolds(pages[k], x) {
              var k :| 0 <= k < |pages| && Reaches(pages, k, default) && PageHolds(pages[k], x);
              if k > 0 {
                assert Continues(pages[0].cursor, default);
                assert Reaches(pages[1..], k - 1, default) by {
                  forall j | 0 <= j < k - 1
                    ensures pages[1..][j].members.Some? && Continues(pages[1..][j].cursor, default)
                  {
                    assert pages[1..][j] == pages[j + 1];
                  }
                }
                assert PageHolds(pages[1..][k - 1], x);
              }
            }
          }
        }
        Dedup(ms) + rest
  }

  /** A scan fetches pages in order: when every page of `a` is an array whose
      cursor lets the loop go on, the scan of `a + b` yields the members of
      `a`'s pages, in page order, followed by the scan of `b`. */
  lemma {:induction false} ScanTagAppend(a: seq<Page>, b: seq<Page>, default: Option<string>)
    requires forall j :: 0 <= j < |a| ==> a[j].members.Some? && Continues(a[j].cursor, default)
    ensures ScanTag(a + b, default) == ScanTag(a, default) + ScanTag(b, default)
    decreases |a|
  {
    if |a| == 0 {
      assert a + b == b;
    } else {
      assert (a + b)[0] == a[0];
      assert (a + b)[1..] == a[1..] + b;
      ScanTagAppend(a[1..], b, default);
    }
  }

  /** One array page yields its members through array_unique, in order. */
  lemma ScanTagOnePage(cursor: string, ms: seq<string>, default: Option<string>)
    ensures ScanTag([Page(cursor, Some(ms))], default) == Dedup(ms)
  {
    assert [Page(cursor, Some(ms))][1..] == [];
  }

  /** The members yielded for a list of tag ids: each tag's scan in turn. A
      member is yielded exactly when the scan of one of the ids yields it. */
  function Entries(ids: seq<string>, scans: Scans, default: Option<string>): (r: seq<string>)
    ensures forall x :: x in r <==> exists i :: 0 <= i < |ids| && x in ScanTag(ScansOf(scans, ids[i]), default)
    decreases |ids|
  {
    if |ids| == 0 then []
    else
      var rest := Entries(ids[1..], scans, default);
      assert forall x :: x in rest <==> exists i :: 1 <= i < |ids| && x in ScanTag(ScansOf(scans, ids[i]), default) by {
        forall x
          ensures x in rest <==> exists i :: 1 <= i < |ids| && x in ScanTag(ScansOf(scans, ids[i]), default)
        {
          if x in rest {
            var i :| 0 <= i < |ids| - 1 && x in ScanTag(ScansOf(scans, ids[1..][i]), default);
            assert ids[1..][i] == ids[i + 1];
          }
          if exists i :: 1 <= i < |ids| && x in ScanTag(ScansOf(scans, ids[i]), default) {
            var i :| 1 <= i < |ids| && x in ScanTag(ScansOf(scans, ids[i]), default);
            assert ids[1..][i - 1] == ids[i];
          }
        }
      }
      ScanTag(ScansOf(scans, ids[0]), default) + rest
  }

  /** entries() of a tag set: a member is yielded exactly when the scan of one
      of the tag set's tags yields it. */
  function TagEntries(tags: TagSet, scans: Scans, default: Option<string>): (r: seq<string>)
    ensures r == Entries(TagIds(tags.names), scans, default)
    ensures forall x :: x in r <==>
              exists name :: name in tags.names && x in ScanTag(ScansOf(scans, TagId(name)), default)
  {
    var ids := TagIds(tags.names);
    var r := Entries(ids, scans, default);
    assert forall x :: x in r ==> exists name :: name in tags.names && x in ScanTag(ScansOf(scans, TagId(name)), default) by {
      forall x | x in r
        ensures exists name :: name in tags.names && x in ScanTag(ScansOf(scans, TagId(name)), default)
      {
        var i :| 0 <= i < |ids| && x in ScanTag(ScansOf(scans, ids[i]), default);
        assert tags.names[i] in tags.names;
      }
    }
    assert forall x, name :: name in tags.names && x in ScanTag(ScansOf(scans, TagId(name)), default) ==> x in r by {
      forall x, name | name in tags.names && x in ScanTag(ScansOf(scans, TagId(name)), default)
        ensures x in r
      {
        var i :| 0 <= i < |tags.names| && tags.names[i] == name;
        assert ids[i] == TagId(name);
      }
    }
    r
  }

  /** The enumeration of a single tag id is that tag's scan, in page order. */
  lemma EntriesOne(id: string, scans: Scans, default: Option<string>)
    ensures Entries([id], scans, default) == ScanTag(ScansOf(scans, id), default)
  {
    assert [id][1..] == [];
  }

  /** Enumeration goes tag by tag: the entries of a concatenation of id lists
      are the entries of the first list followed by those of the second. */
  lemma {:induction false} EntriesAppend(a: seq<string>, b: seq<string>, scans: Scans, default: Option<string>)
    ensures Entries(a + b, scans, default) == Entries(a, scans, default) + Entries(b, scans, default)
    decreases |a|
  {
    if |a| == 0 {
      assert a + b == b;
    } else {
      assert (a + b)[1..] == a[1..] + b;
      EntriesAppend(a[1..], b, scans, default);
    }
  }

  /** The replies for tag id `id` only ever list members of that tag's set. */
  ghost predicate ScanFaithful(index: Index, scans: Scans, id: string) {
    forall k, x :: 0 <= k < |ScansOf(scans, id)| && PageHolds(ScansOf(scans, id)[k], x) ==>
      x in SetOf(index, id)
  }

  /** Every member entries() yields belongs to the sorted set of a tag of the
      tag set, provided the store's replies are faithful to the index. */
  lemma EntriesAreIndexed(index: Index, tags: TagSet, scans: Scans, default: Option<string>, x: string)
    requires forall id :: id in TagIds(tags.names) ==> ScanFaithful(index, scans, id)
    requires x in TagEntries(tags, scans, default)
    ensures exists name :: name in tags.names && x in SetOf(index, TagId(name))
  {
    var name :| name in tags.names && x in ScanTag(ScansOf(scans, TagId(name)), default);
    var pages := ScansOf(scans, TagId(name));
    var k :| 0 <= k < |pages| && Reaches(pages, k, default) && PageHolds(pages[k], x);
    var i :| 0 <= i < |tags.names| && tags.names[i] == name;
    assert TagIds(tags.names)[i] == TagId(name);
    assert ScanFaithful(index, scans, TagId(name));
  }

  /** A non-array reply ends only the current tag's scan: enumeration goes on
      with the next tag id. */
  lemma NonArrayReplyEndsOnlyThisTag(ids: seq<string>, scans: Scans, default: Option<string>, cursor: string, rest: seq<Page>)
    requires |ids| > 0 && ScansOf(scans, ids[0]) == [Page(cursor, None)] + rest
    ensures Entries(ids, scans, default) == Entries(ids[1..], scans, default)
  {
  }

  /** An empty page yields nothing and does not end the scan unless its cursor
      is back at the default. */
  lemma EmptyPageContinues(cursor: string, rest: seq<Page>, default: Option<string>)
    ensures ScanTag([Page(cursor, Some([]))] + rest, default) ==
            if Continues(cursor, default) then ScanTag(rest, default) else []
  {
    assert ([Page(cursor, Some([]))] + rest)[1..] == rest;
  }

  /** A page whose cursor is back at a (string) default is the tag's last page. */
  lemma DefaultCursorEndsScan(d: string, ms: seq<string>, rest: seq<Page>)
    ensures ScanTag([Page(d, Some(ms))] + rest, Some(d)) == Dedup(ms)
  {
  }
}

=== FILE: wrappers.dfy ===
/** Wrapper types shared by the model: an optional value and the outcome of a
    store command that can be refused. */
module Wrappers {

  /** A PHP value that may be null. */
  datatype Option<+T> = None | Some(value: T)

  /** The reply of a store command that either succeeds with a value or is
      refused by the server with an error. */
  datatype Result<+T> = Ok(value: T) | Err(reason: string)
}
